=== FILE: README.md ===
# PsiCash action processing and Kin account registration

This project models two sequential cores of the Psiphon Android client, and proves properties of
both.

1. **The PsiCash action processor** (`PsiCashActionProcessorHolder`).
   - The view sends a stream of `PsiCashAction`s. Six lanes each accept one action type and turn
     it into a run of `PsiCashResult`s. The lanes are: clear error state, remote balance, local
     balance, expiring purchase, remove purchases, and rewarded video.
   - A catch-all fails the merged stream on any other action.
   - Each lane is written as the operator chain of its Java lambda (`map`, `onErrorReturn`,
     `startWith`, `concatWith`, `just`). The chain runs over a finite model of those operators
     (module `Rx`). The external call is an input: a `Call` (`Ok(value) | Err(error)`), or a
     finite `Stream` of video events with its terminal event.
   - Each lane returns its result sequence together with the listener calls it fires
     (`onNewExpiringPurchase`, `onNewReward`).
   - The merged stream is modelled action by action, in input order.
2. **The Kin account helper** (`AccountHelper`).
   - The state is held in a `Helper`:
     - the active account;
     - the value of the state relay: none yet, UNREGISTERED, REGISTERED or DELETED;
     - the persisted per-address "registered" flag, as a map;
     - the operations still waiting on `getAccountIfRegistered`.
   - `onNewAccount`, `register`, `delete` and `transferOut` are step functions. Their external
     answers are parameters:
     - the public address, or null;
     - the server's answer to `createAccount`;
     - the outcomes of building, whitelisting and sending a transaction.
   - A waiting operation runs when the relay next receives a state other than UNREGISTERED. Each
     waiting operation sees the state left by the ones that ran before it, so a delete that goes
     through makes every operation behind it see DELETED (`WaiterAnswer`).

Modules:

- `Rx` (rx.dfy): the reactive operators, over finite streams with side effects.
- `PsiCashModel` (psicash_model.dfy): actions, payloads, results, listener calls, and `Notified`,
  the listener calls a result sequence promises.
- `PsiCashLanes` (psicash_lanes.dfy): the six lanes.
- `PsiCashProcessor` (psicash_processor.dfy): routing, the catch-all, and the merged stream.
- `AccountHelper` (account_helper.dfy): the state machine.
- `AccountProperties` (account_properties.dfy): properties that relate several steps, or compare a
  step with an independent description.

Paths in the table below are relative to the repository root. `Holder` stands for
`app/src/main/java/com/psiphon3/psicash/PsiCashActionProcessorHolder.java`. `Helper` stands for
`app/src/main/java/com/psiphon3/kin/AccountHelper.java`.

## Model

| member | source | states |
|---|---|---|
| Rx.Map | app/src/main/java/com/psiphon3/psicash/PsiCashActionProcessorHolder.java:68-84 | `map` with a throwing function. The output keeps the mapped values of the items before the first throw, in order. The first throw replaces all the rest with an error carrying that exception. Without a throw, the source's terminal event passes through. |
| Rx.MapEffects | app/src/main/java/com/psiphon3/psicash/PsiCashActionProcessorHolder.java:43-53 | The side effects fired inside `map` are exactly those of the items it accepted, in order. Nothing fires for the item that threw or for any item after it. |
| PsiCashLanes.ClearErrorStateLane | app/src/main/java/com/psiphon3/psicash/PsiCashActionProcessorHolder.java:26 | ClearErrorState yields exactly one `ClearErrorState.Success`, completes, has no in-flight marker and makes no listener call. |
| PsiCashLanes.GetPsiCashLane | app/src/main/java/com/psiphon3/psicash/PsiCashActionProcessorHolder.java:28-38 | A balance request yields exactly two results: `GetPsiCash.InFlight`, then `Success(data)` if the call succeeds or `Failure(e)` if it fails. The stream always completes, so the error never escapes. No listener call is made. |
| PsiCashProcessor.RemovePurchasesResults | app/src/main/java/com/psiphon3/psicash/PsiCashActionProcessorHolder.java:57-61 | RemovePurchases yields `GetPsiCash.InFlight`, then the balance the removal returns as `Success`, or its error as `Failure`. It completes and calls no listener. |
| PsiCashLanes.MakeExpiringPurchaseLane | app/src/main/java/com/psiphon3/psicash/PsiCashActionProcessorHolder.java:40-55 | `ExpiringPurchase.InFlight`, then exactly one terminal. An expiring-purchase payload gives `ExpiringPurchase.Success`. A balance payload gives `GetPsiCash.Success`. A call error gives `ExpiringPurchase.Failure(e)`. Any other payload gives `ExpiringPurchase.Failure` with "Unknown result: " and the payload. The stream always completes. With a listener, the calls fired are exactly those the results promise; without one, none are fired. The `map` at :43-53 is `PsiCashLanes.PurchaseMapper`. |
| PsiCashLanes.MapNotifies | app/src/main/java/com/psiphon3/psicash/PsiCashActionProcessorHolder.java:79-81 | If each mapped item fires exactly the listener call its result promises, then so does the whole mapped stream, over any number of events. The video lane uses this to fire `onNewReward` once per `Reward.Success`, in order, and for no other result. |
| PsiCashLanes.LoadVideoAdLane | app/src/main/java/com/psiphon3/psicash/PsiCashActionProcessorHolder.java:66-87 | The video results start with `Video.Loading`. The accepted events follow: LOADED→`Loaded`, PLAYING→`Playing`, a reward→`Reward.Success`. Then comes one terminal, and the stream completes. `Finished` appears if and only if every event was accepted and the source completed normally. Otherwise the terminal is `Video.Failure` carrying the first error. `onNewReward` fires once per `Reward.Success`. Without a listener, no reward ever succeeds. The `map` at :68-84 is `PsiCashLanes.VideoMapper`. |
| PsiCashLanes.VideoLaneItems | app/src/main/java/com/psiphon3/psicash/PsiCashActionProcessorHolder.java:68-87 | The shape of the video chain's output: the loading marker, the accepted events mapped in order, and the terminal that `VideoTerminal` names independently from the source and the first rejected event. |
| PsiCashLanes.VideoLaneFinished | app/src/main/java/com/psiphon3/psicash/PsiCashActionProcessorHolder.java:85-87 | `Video.Finished` occurs in the output if and only if the source completed and no event was rejected by the `map`. |
| PsiCashLanes.VideoLaneNotifies | app/src/main/java/com/psiphon3/psicash/PsiCashActionProcessorHolder.java:79-81 | The reward notifications equal what the results promise. With no listener, a reward fails the load and nothing is notified. |
| PsiCashProcessor.Route | app/src/main/java/com/psiphon3/psicash/PsiCashActionProcessorHolder.java:95-111 | Each action passes exactly one of the seven subscriber filters: six `ofType` filters and the catch-all. The catch-all is chosen if and only if the action is none of the six known kinds. |
| PsiCashProcessor.ProcessAction | app/src/main/java/com/psiphon3/psicash/PsiCashActionProcessorHolder.java:92-113 | An action's contribution to the merged stream ends in an error if and only if it goes to the catch-all. An unknown action contributes no results and fails with "Unknown action: " and the action. |
| PsiCashProcessor.ProcessActionFamily | app/src/main/java/com/psiphon3/psicash/PsiCashActionProcessorHolder.java:95-100 | Every result an action produces belongs to the result family of the lane that accepted it. |
| PsiCashProcessor.ProcessActionNotifies | app/src/main/java/com/psiphon3/psicash/PsiCashActionProcessorHolder.java:44-81 | For any action: with a listener, the listener calls are exactly those its results promise; without one, there are none. |
| PsiCashProcessor.ProcessFrom | app/src/main/java/com/psiphon3/psicash/PsiCashActionProcessorHolder.java:92-103 | Over the merged stream, the listener calls are exactly those the merged results promise, or none without a listener. |
| PsiCashProcessor.FirstUnknown | app/src/main/java/com/psiphon3/psicash/PsiCashActionProcessorHolder.java:105-111 | The position of the first action the catch-all accepts, or the input length if there is none. |
| PsiCashProcessor.ProcessFromEnd | app/src/main/java/com/psiphon3/psicash/PsiCashActionProcessorHolder.java:103-113 | The merged stream completes if every action is known. Otherwise it fails with the "Unknown action" error of the first unknown action. |
| PsiCashProcessor.ProcessFromItems | app/src/main/java/com/psiphon3/psicash/PsiCashActionProcessorHolder.java:92-113 | The merged stream holds the results of every action before the first unknown one, per action and in order, and nothing after that action. |
| AccountHelper.Query | app/src/main/java/com/psiphon3/kin/AccountHelper.java:52-78 | The immediate answer of `getAccountIfRegistered`. DELETED gives "account deleted". REGISTERED gives the account. With no state, or UNREGISTERED, the answer is pending. |
| AccountProperties.GetAccountIfRegisteredAnswersFirstSettled | app/src/main/java/com/psiphon3/kin/AccountHelper.java:52-78 | For any replayed value and any later relay values, `getAccountIfRegistered` answers by the first value other than UNREGISTERED, and stays pending while there is none. `FirstSettled` is an independent definition of that value. This is the property of `AccountHelper.GetAccountIfRegistered`, the direct model of these lines. |
| AccountProperties.SettledStatesHead | app/src/main/java/com/psiphon3/kin/AccountHelper.java:65-68 | After filtering out UNREGISTERED, the first remaining value is the first value other than UNREGISTERED. |
| AccountHelper.Accept | app/src/main/java/com/psiphon3/kin/AccountHelper.java:65-76 | Publishing UNREGISTERED only records it and wakes nothing. Publishing REGISTERED or DELETED runs every waiting operation, in queue order, with one signal each. The waiter at position `i` ends with its signal for `WaiterAnswer`: "account deleted" if DELETED was published, or if a delete ahead of it went through and republished DELETED; otherwise the account. The helper left behind is `AfterWake`: on REGISTERED, the first delete that goes through makes the state DELETED and clears the flag; nothing else changes beyond the published state and the emptied queue. |
| AccountHelper.Wake | app/src/main/java/com/psiphon3/kin/AccountHelper.java:63-76 | Waiting operations run in order against a settled state. Each one ends with exactly one signal: its signal for the state left by the ones before it. That means "account deleted" after DELETED, or after a delete that went through, and the account otherwise (`WaiterAnswer`). The resulting helper is `AfterWake`: DELETED after the first delete that goes through on REGISTERED, with that address's flag cleared, and unchanged otherwise. No transfer signals failure. |
| AccountHelper.OnNewAccount | app/src/main/java/com/psiphon3/kin/AccountHelper.java:46-50 | The corrected program (see Findings): the account is stored, UNREGISTERED is published, and the corrected register runs. Afterwards the state is still UNREGISTERED if and only if the address is non-null, not flagged as registered, and the server call failed; then nothing else happens beyond the server call. A null address ends DELETED, with every waiting operation run and answered "account deleted". Otherwise REGISTERED is published, every waiting operation runs in order with its `WaiterAnswer`, and the state is the one `AfterWake` leaves. The last signal is register's termination. |
| AccountHelper.OnNewAccountAsWritten | app/src/main/java/com/psiphon3/kin/AccountHelper.java:46-50 | The program as written: the account is stored, UNREGISTERED is published, and register runs. Afterwards the state is still UNREGISTERED if and only if the address is null, or it is not flagged and the server call failed. A null address changes nothing else: the waiting operations stay queued, and register fails with the NullPointerException. With a non-null address it agrees with `OnNewAccount`. |
| AccountHelper.Register | app/src/main/java/com/psiphon3/kin/AccountHelper.java:81-105 | With a null address: DELETED is published, every waiting operation runs and is answered "account deleted", flags are untouched, register fails with "unable to register", and the server is not called. With the flag already set: REGISTERED is published, the waiting operations run in order with their `WaiterAnswer`, the helper is the one `AfterWake` leaves (REGISTERED when no delete waits), register completes, and the server is not called. Otherwise `createAccount` is called. On success REGISTERED is published and the waiting operations run as above, then the flag is set; the state is the one `AfterWake` leaves. On failure nothing changes and the error is passed on. |
| AccountHelper.RegisterAsWritten | app/src/main/java/com/psiphon3/kin/AccountHelper.java:82-88 | As written, a null public address fails inside `map` before the `address == null` branch. Nothing changes: state, flags and waiters are untouched, the server is not called, and queries answer as before. The corrected `Register` ends DELETED, so the two disagree on the state unless it was already DELETED. Any other address behaves as the corrected register. |
| AccountHelper.Delete | app/src/main/java/com/psiphon3/kin/AccountHelper.java:107-115 | REGISTERED: the state becomes DELETED and the address's flag is cleared. DELETED: nothing changes and the delete fails. Unsettled: the delete waits. |
| AccountHelper.Transfer | app/src/main/java/com/psiphon3/kin/AccountHelper.java:124-141 | Once resolved, a transfer always completes. The transaction is sent if and only if the account resolved and all three calls succeeded. Each call is made if and only if every earlier step succeeded. |
| AccountHelper.TransferOut | app/src/main/java/com/psiphon3/kin/AccountHelper.java:124-142 | transferOut never changes the state, the account or the flags. On a settled state it completes at once; otherwise it waits. |
| AccountProperties.TransferOutNeverFails | app/src/main/java/com/psiphon3/kin/AccountHelper.java:140-141 | No step of the helper, corrected or as written, ever ends a transfer with an error, including transfers that ran after waiting. |
| AccountProperties.QueuedWaiterRuns | app/src/main/java/com/psiphon3/kin/AccountHelper.java:52-78 | The case of the only waiting operation: queued on an unsettled state and followed by any sequence of published states, it ends with exactly one signal. That signal is for the answer `getAccountIfRegistered` gives over the state at queueing time and those published states. While that answer is pending, it stays queued and signals nothing. |
| AccountProperties.QueuedWaitersRun | app/src/main/java/com/psiphon3/kin/AccountHelper.java:63-76 | Any queue of operations waiting on an unsettled state runs, in order and exactly once each, when the relay first receives a value other than UNREGISTERED. The operation at position `i` gets that value's answer, unless a delete ahead of it went through first; then it gets "account deleted". Until then nothing is signalled and the queue is unchanged. |
| AccountProperties.TransferBehindDeleteUnsent | app/src/main/java/com/psiphon3/kin/AccountHelper.java:107-113 | A transferOut queued behind a delete, with REGISTERED published next: the delete goes through and republishes DELETED, so the transfer is answered "account deleted" and is never sent. |
| AccountProperties.QueuedTransferRuns | app/src/main/java/com/psiphon3/kin/AccountHelper.java:124-141 | A transferOut issued before the account settles, as the only waiting operation, runs once some later state is not UNREGISTERED. It ends once, without failure, and sends the transaction if and only if the account resolved and all three calls succeeded. Behind other waiting operations, see `QueuedWaitersRun`. |
| AccountProperties.StepsPreserveValid | app/src/main/java/com/psiphon3/kin/AccountHelper.java:46-115 | Every step, corrected or as written, keeps the helper consistent: a published state implies a stored account, and nothing waits once the state is settled. |
| AccountProperties.InitValid | app/src/main/java/com/psiphon3/kin/AccountHelper.java:38-44 | A freshly constructed helper (no account, no state, nothing waiting) is consistent and answers queries as pending. So every helper reached by the steps is consistent. |
| AccountProperties.PendingDeleteResolvedBySettledState | app/src/main/java/com/psiphon3/kin/AccountHelper.java:107-113 | A delete that is the only waiting operation on an unsettled state is resolved by the next settled state. DELETED makes it fail with nothing changed. REGISTERED makes it publish DELETED and clear the flag. |
| AccountProperties.DeleteDuringRegistration | app/src/main/java/com/psiphon3/kin/AccountHelper.java:98-101 | A delete issued while the first registration is in flight runs when that registration publishes REGISTERED. Because the flag is stored after publication, the account ends DELETED with its flag set. |
| AccountProperties.RegisterAppliesQueuedDelete | app/src/main/java/com/psiphon3/kin/AccountHelper.java:98-113 | A registration that publishes REGISTERED runs a delete waiting anywhere in the queue. The first waiting delete, and only it, goes through, and the account ends DELETED with nothing waiting. The flag ends cleared if it was already set. It ends set if the server was contacted, because the flag is stored after publication. |
| AccountProperties.RegisterNullAddressEndsWaiting | app/src/main/java/com/psiphon3/kin/AccountHelper.java:85-88 | With a null address, registration settles the account as DELETED. Queries answer "account deleted" and nothing is left waiting. |
| AccountProperties.RegisterAsWrittenLeavesQueryPending | app/src/main/java/com/psiphon3/kin/AccountHelper.java:82-88 | As written, a null address leaves an UNREGISTERED account unsettled. A query stays pending and a waiting delete never runs. The corrected register settles both. |

## Left out

- AccountHelper.OnNewAccount: builds on the corrected `Register`. For a null public address it
  publishes DELETED, where the code as written leaves UNREGISTERED. `OnNewAccountAsWritten`
  models the code as written, and the Findings table records the difference.
- The concurrency of the Rx operators is not modelled:
  - `flatMap` interleaving across actions;
  - `switchMap` cancelling a previous video load (Holder:66);
  - `publish`/`merge` multicasting;
  - schedulers and disposal.
  The merged stream is modelled as each action's results delivered in full before the next
  action's.
- PsiCashProcessor.ProcessFrom: models one interleaving only. Results of earlier actions that are
  still in flight when an unknown action arrives are treated as already delivered.
- The external singletons are opaque, and their answers are inputs:
  - `PsiCashClient` and `RewardedVideoClient` answer through `Clients`, indexed by position in the
    input;
  - `rewardedVideoCustomData` is folded into the video source;
  - the Kin SDK and `ServerCommunicator` outcomes are parameters of each step.
- PsiCashLanes.GetPsiCashLane: each client call is modelled as yielding one value or one error.
  A client observable that emits several values is not modelled.
- The logging (Holder:65, :88-89) has no effect on results.
- `toString` of actions and payloads is abstracted to a string field of the unknown variants.
- `Double`→`BigDecimal` conversion, balances and `getCurrentBalance`: floating point and SDK calls.
- AccountHelper.Register: with a null account, `Single.just(null)` throws when register is called
  rather than returning a failing Completable. This is modelled as a failed completion.
- AccountHelper.Register: `createAccount` is asynchronous. It is collapsed into the step that
  receives its answer, so a step that runs while the server call is outstanding is modelled as
  running before or after it.
- Errors from the `subscribe()` calls without handlers in `onNewAccount` and `delete` go to the
  global error handler. They are modelled only as the step's signals.
- `app/src/main/java/com/psiphon3/PsiphonTabLayout.java` is a UI widget and is not part of this
  model.

## Findings

| source | as written | input that shows it | evidently intended | confidence | as-written member | corrected member |
|---|---|---|---|---|---|---|
| app/src/main/java/com/psiphon3/kin/AccountHelper.java:82-88 | `Single.just(account).map(KinAccount::getPublicAddress)`. In RxJava 2, a `map` whose function returns null signals a NullPointerException, so the `address == null` branch can never run. | An account whose `getPublicAddress()` returns null, registered while the state is UNREGISTERED. The state stays UNREGISTERED, and every `getAccountIfRegistered` waiter (delete, transferOut) waits forever. | Publish DELETED and fail with "account deleted, unable to register". | medium, not executed | AccountHelper.RegisterAsWritten, AccountHelper.OnNewAccountAsWritten, AccountProperties.RegisterAsWrittenLeavesQueryPending | AccountHelper.Register, AccountHelper.OnNewAccount, AccountProperties.RegisterNullAddressEndsWaiting |

Two more behaviours are modelled as written and noted here. Neither is claimed as a defect:

- The video lane calls `onNewReward` without a null check (Holder:80). With no listener, a reward
  event throws inside `map` and ends the load with `Video.Failure`.
- In `register`, `doOnComplete` publishes REGISTERED before it stores the flag (Helper:99-100). A
  delete waiting at that moment leaves the account DELETED with its flag set
  (`AccountProperties.DeleteDuringRegistration`).

=== FILE: account_helper.dfy ===
/** AccountHelper: the registration state machine around the active Kin account.

    The BehaviorRelay holding the account state is `state` (None until the first value);
    SettingsManager's persisted per-address "registered" flag is `settings`. A call to
    getAccountIfRegistered made while the state is absent or UNREGISTERED waits on the relay;
    the operations waiting that way (a delete or a transferOut) are kept in `waiters`, in
    subscription order, and run when the relay next receives a state other than UNREGISTERED.
    Every external answer (the account's public address, the server's reply, the SDK's
    transaction calls) is a parameter of the step that consumes it.
 */
module AccountHelper {

  datatype Option<T> = None | Some(value: T)

  type Address = string

  /** The Kin SDK account; `publicAddress` is None when getPublicAddress() answers null. */
  datatype KinAccount = KinAccount(publicAddress: Option<Address>)

  datatype AccountState = Unregistered | Registered | Deleted

  datatype Failure =
    | AccountDeleted         // Exception("account deleted")
    | UnableToRegister       // Exception("account deleted, unable to register")
    | NullAccount            // the account field is still null
    | NullAddress            // getPublicAddress() returned null inside a `map`
    | Remote(message: string)  // an error from the server or the Kin SDK

  /** How a Completable (or a Single whose value is ignored) terminates. */
  datatype Completion = Complete | Failed(failure: Failure)

  /** The outcome of a Kin SDK or server call. Unlike the PsiCash clients' calls, these fail
      with the account's own failures, which the helper's errors are drawn from. */
  datatype Outcome<T> = Ok(value: T) | Err(failure: Failure)

  /** What getAccountIfRegistered has delivered so far. */
  datatype Answer = Account(account: KinAccount) | Error(failure: Failure) | Pending

  /** The outcomes the three calls of a transfer will have: building the transaction with the
      SDK, whitelisting it with the server, and sending the whitelisted transaction. */
  datatype TransferPlan = TransferPlan(build: Outcome<string>, whitelist: Outcome<string>, send: Outcome<string>)

  datatype TransferCall = BuildTransaction | WhitelistTransaction | SendWhitelistTransaction

  /** An operation waiting for getAccountIfRegistered to resolve. */
  datatype Waiter = DeleteWaiter | TransferWaiter(plan: TransferPlan)

  datatype Helper = Helper(
    account: Option<KinAccount>,
    state: Option<AccountState>,
    settings: map<Address, bool>,
    waiters: seq<Waiter>)

  /** What the outside world observes from a step. */
  datatype Signal =
    | CreateAccountCalled(address: Address)   // serverCommunicator.createAccount(address)
    | RegisterEnded(completion: Completion)   // the Completable returned by register terminates
    | DeleteApplied(address: Address)         // delete's doOnSuccess ran for `address`
    | DeleteFailed(failure: Failure)          // delete's chain ended in an error
    | TransferEnded(calls: seq<TransferCall>, sent: bool, completion: Completion)

  datatype Stepped = Stepped(helper: Helper, signals: seq<Signal>)

  /** A freshly constructed helper over the persisted settings. */
  function Init(settings: map<Address, bool>): Helper
  {
    Helper(None, None, settings, [])
  }

  predicate Settled(state: Option<AccountState>)
  {
    state == Some(Registered) || state == Some(Deleted)
  }

  /** SettingsManager.isAccountRegistered: an address never stored reads as unregistered. */
  predicate IsAccountRegistered(settings: map<Address, bool>, address: Address)
  {
    address in settings && settings[address]
  }

  /** `Single.just(account)`. */
  function JustAccount(account: Option<KinAccount>): Answer
  {
    match account
    case Some(a) => Account(a)
    case None => Error(NullAccount)
  }

  /** The relay's values with UNREGISTERED filtered out. */
  function SettledStates(states: seq<AccountState>): seq<AccountState>
    decreases |states|
  {
    if |states| == 0 then []
    else (if states[0] == Unregistered then [] else [states[0]]) + SettledStates(states[1..])
  }

  /** getAccountIfRegistered, as the relay's subscriber sees it: `current` is the value the relay
      holds when subscribed to (replayed first), `later` the values it receives afterwards. The
      first value is switched on; UNREGISTERED subscribes again, filters UNREGISTERED out and
      answers by the first remaining value. */
  function GetAccountIfRegistered(current: Option<AccountState>, later: seq<AccountState>, account: Option<KinAccount>): Answer
  {
    var seen := if current.Some? then [current.value] + later else later;
    if |seen| == 0 then Pending
    else
      match seen[0]
      case Deleted => Error(AccountDeleted)
      case Registered => JustAccount(account)
      case Unregistered =>
        var settled := SettledStates(seen);
        if |settled| == 0 then Pending
        else if settled[0] == Registered then JustAccount(account)
        else Error(AccountDeleted)
  }

  /** The answer available now, from the relay's current value alone. */
  function Query(h: Helper): (answer: Answer)
    ensures answer.Pending? <==> !Settled(h.state)
    ensures h.state == Some(Deleted) ==> answer == Error(AccountDeleted)
    ensures h.state == Some(Registered) ==> answer == JustAccount(h.account)
  {
    assert SettledStates([Unregistered]) == SettledStates([]);
    GetAccountIfRegistered(h.state, [], h.account)
  }

  datatype TransferRun = TransferRun(calls: seq<TransferCall>, outcome: Outcome<string>)

  /** The chain of transferOut before `ignoreElement().onErrorComplete()`: the calls it makes, in
      order, and the outcome of the Single it builds. */
  function TransferChain(answer: Answer, plan: TransferPlan): TransferRun
    requires !answer.Pending?
  {
    match answer
    case Error(f) => TransferRun([], Err(f))
    case Account(_) =>
      match plan.build
      case Err(f) => TransferRun([BuildTransaction], Err(f))
      case Ok(_) =>
        match plan.whitelist
        case Err(f) => TransferRun([BuildTransaction, WhitelistTransaction], Err(f))
        case Ok(_) => TransferRun([BuildTransaction, WhitelistTransaction, SendWhitelistTransaction], plan.send)
  }

  function IgnoreElement<T>(o: Outcome<T>): Completion
  {
    match o
    case Ok(_) => Complete
    case Err(f) => Failed(f)
  }

  function OnErrorComplete(c: Completion): Completion
  {
    match c
    case Complete => Complete
    case Failed(_) => Complete
  }

  /** transferOut once getAccountIfRegistered has answered. */
  function Transfer(answer: Answer, plan: TransferPlan): (s: Signal)
    requires !answer.Pending?
    ensures s.TransferEnded? && s.completion == Complete
    ensures s.sent <==> answer.Account? && plan.build.Ok? && plan.whitelist.Ok? && plan.send.Ok?
    ensures BuildTransaction in s.calls <==> answer.Account?
    ensures WhitelistTransaction in s.calls <==> answer.Account? && plan.build.Ok?
    ensures SendWhitelistTransaction in s.calls <==> answer.Account? && plan.build.Ok? && plan.whitelist.Ok?
  {
    var run := TransferChain(answer, plan);
    TransferEnded(run.calls, run.outcome.Ok?, OnErrorComplete(IgnoreElement(run.outcome)))
  }

  /** The one signal a waiting operation ends with once `answer` is known: delete's doOnSuccess
      or its error, or the transfer's termination. */
  function WaiterSignal(w: Waiter, answer: Answer): Signal
    requires !answer.Pending?
  {
    match w
    case TransferWaiter(plan) => Transfer(answer, plan)
    case DeleteWaiter =>
      match answer
      case Error(f) => DeleteFailed(f)
      case Account(a) => if a.publicAddress.Some? then DeleteApplied(a.publicAddress.value) else DeleteFailed(NullAddress)
  }

  /** Runs `w` with `answer`, or queues it while the answer is pending. */
  function Continue(h: Helper, w: Waiter, answer: Answer): (r: Stepped)
    ensures answer.Pending? ==> r == Stepped(h.(waiters := h.waiters + [w]), [])
    ensures !answer.Pending? ==> r.signals == [WaiterSignal(w, answer)] && r.helper.waiters == h.waiters
    ensures Settled(h.state) ==> Settled(r.helper.state)
  {
    match answer
    case Pending => Stepped(h.(waiters := h.waiters + [w]), [])
    case Error(f) =>
      (match w
       case DeleteWaiter => Stepped(h, [DeleteFailed(f)])
       case TransferWaiter(plan) => Stepped(h, [Transfer(answer, plan)]))
    case Account(a) =>
      match w
      case DeleteWaiter =>
        (match a.publicAddress
         case None => Stepped(h, [DeleteFailed(NullAddress)])
         case Some(address) =>
           Stepped(h.(state := Some(Deleted), settings := h.settings[address := false]), [DeleteApplied(address)]))
      case TransferWaiter(plan) => Stepped(h, [Transfer(answer, plan)])
  }

  /** The kind of signal each kind of waiting operation ends with. */
  predicate EndsAs(w: Waiter, s: Signal)
  {
    match w
    case TransferWaiter(_) => s.TransferEnded?
    case DeleteWaiter => s.DeleteApplied? || s.DeleteFailed?
  }

  /** Whether a delete that resolves to `account` publishes DELETED: only an account with a
      non-null public address gets past delete's `map`. */
  predicate DeletesAccount(account: Option<KinAccount>)
  {
    account.Some? && account.value.publicAddress.Some?
  }

  /** The answer the waiter at position `i` of `ws` receives when the relay publishes the settled
      state `s`: a delete ahead of it that goes through republishes DELETED first, so it and every
      waiter behind it see "account deleted"; otherwise it sees `s`. */
  function WaiterAnswer(s: AccountState, account: Option<KinAccount>, ws: seq<Waiter>, i: nat): Answer
    requires i <= |ws|
  {
    if s == Deleted || (DeletesAccount(account) && DeleteWaiter in ws[..i]) then Error(AccountDeleted)
    else JustAccount(account)
  }

  /** Running the head waiter moves every later waiter's answer one position forward. */
  lemma WaiterAnswerStep(h: Helper, ws: seq<Waiter>, i: nat)
    requires Settled(h.state) && 1 <= i < |ws|
    ensures var first := Continue(h, ws[0], Query(h));
            && Settled(first.helper.state)
            && first.helper.account == h.account
            && WaiterAnswer(first.helper.state.value, h.account, ws[1..], i - 1)
               == WaiterAnswer(h.state.value, h.account, ws, i)
  {
    assert ws[..i] == [ws[0]] + ws[1..][..i - 1];
  }

  /** The helper left once the waiters `ws` have run on the settled helper `h`: on REGISTERED, the
      first delete that goes through publishes DELETED and clears the account's flag, and every
      later waiter fails without touching anything; no other waiter changes the helper. */
  function AfterWake(h: Helper, ws: seq<Waiter>): Helper
  {
    if h.state == Some(Registered) && DeletesAccount(h.account) && DeleteWaiter in ws then
      h.(state := Some(Deleted), settings := h.settings[h.account.value.publicAddress.value := false])
    else h
  }

  /** From position `k` on, `signals` holds the signals of the waiters `ws` run in order when the
      relay publishes the settled state `s`, each with its `WaiterAnswer`. */
  predicate WokeInOrder(signals: seq<Signal>, k: nat, ws: seq<Waiter>, s: AccountState, account: Option<KinAccount>)
  {
    && k + |ws| <= |signals|
    && forall i :: 0 <= i < |ws| ==> signals[k + i] == WaiterSignal(ws[i], WaiterAnswer(s, account, ws, i))
  }

  /** Runs the waiters in order; each sees the state left by those before it. */
  function Wake(h: Helper, ws: seq<Waiter>): (r: Stepped)
    ensures Settled(h.state) ==> Settled(r.helper.state) && r.helper.waiters == h.waiters
    ensures Settled(h.state) ==> |r.signals| == |ws| && forall i :: 0 <= i < |ws| ==> EndsAs(ws[i], r.signals[i])
    ensures Settled(h.state) ==>
              forall i :: 0 <= i < |ws| ==>
                r.signals[i] == WaiterSignal(ws[i], WaiterAnswer(h.state.value, h.account, ws, i))
    ensures Settled(h.state) ==> r.helper == AfterWake(h, ws)
    ensures h.state == Some(Deleted) ==> r.helper == h
    ensures r.helper.account == h.account
    ensures forall i :: 0 <= i < |r.signals| ==>
              !r.signals[i].CreateAccountCalled? && !r.signals[i].RegisterEnded?
              && (r.signals[i].TransferEnded? ==> r.signals[i].completion == Complete)
    decreases |ws|
  {
    if |ws| == 0 then Stepped(h, [])
    else
      var first := Continue(h, ws[0], Query(h));
      var rest := Wake(first.helper, ws[1..]);
      assert Settled(h.state) ==> forall i :: 1 <= i < |ws| ==> ws[i] == ws[1..][i - 1];
      assert Settled(h.state) ==> forall i :: 1 <= i < |ws| ==>
        WaiterAnswer(first.helper.state.value, h.account, ws[1..], i - 1) == WaiterAnswer(h.state.value, h.account, ws, i)
      by {
        if Settled(h.state) {
          forall i | 1 <= i < |ws| {
            WaiterAnswerStep(h, ws, i);
          }
        }
      }
      assert ws == [ws[0]] + ws[1..];
      Stepped(rest.helper, first.signals + rest.signals)
  }

  /** `accountStateBehaviorRelay.accept(s)`. */
  function Accept(h: Helper, s: AccountState): (r: Stepped)
    ensures s == Unregistered ==> r == Stepped(h.(state := Some(Unregistered)), [])
    ensures s != Unregistered ==> Settled(r.helper.state) && r.helper.waiters == []
    ensures s != Unregistered ==>
              && |r.signals| == |h.waiters|
              && (forall i :: 0 <= i < |h.waiters| ==> EndsAs(h.waiters[i], r.signals[i]))
              && (forall i :: 0 <= i < |h.waiters| ==>
                    r.signals[i] == WaiterSignal(h.waiters[i], WaiterAnswer(s, h.account, h.waiters, i)))
              && r.helper == AfterWake(h.(state := Some(s), waiters := []), h.waiters)
    ensures h.waiters == [] ==> r == Stepped(h.(state := Some(s)), [])
    ensures s == Deleted ==> r.helper == h.(state := Some(Deleted), waiters := [])
    ensures r.helper.account == h.account
    ensures forall i :: 0 <= i < |r.signals| ==>
              !r.signals[i].CreateAccountCalled? && !r.signals[i].RegisterEnded?
              && (r.signals[i].TransferEnded? ==> r.signals[i].completion == Complete)
  {
    if s == Unregistered then Stepped(h.(state := Some(s)), [])
    else
      var published := h.(state := Some(s), waiters := []);
      assert s == Registered || s == Deleted;
      Wake(published, h.waiters)
  }

  /** register, with the server's answer to createAccount given as `reply`. A null public
      address ends the account: the state becomes DELETED and registration fails. Publishing a
      settled state runs every waiting operation before register itself terminates. */
  function Register(h: Helper, reply: Completion): (r: Stepped)
    ensures r.helper.account == h.account
    ensures |r.signals| > 0 && r.signals[|r.signals| - 1].RegisterEnded?
    ensures h.account == None ==> r == Stepped(h, [RegisterEnded(Failed(NullAccount))])
    ensures h.account.Some? && h.account.value.publicAddress == None ==>
              && r.helper == h.(state := Some(Deleted), waiters := [])
              && |r.signals| == |h.waiters| + 1
              && WokeInOrder(r.signals, 0, h.waiters, Deleted, h.account)
              && r.signals[|r.signals| - 1] == RegisterEnded(Failed(UnableToRegister))
              && forall i :: 0 <= i < |r.signals| ==> !r.signals[i].CreateAccountCalled?
    ensures h.account.Some? && h.account.value.publicAddress.Some?
            && IsAccountRegistered(h.settings, h.account.value.publicAddress.value) ==>
              && r.helper == AfterWake(h.(state := Some(Registered), waiters := []), h.waiters)
              && |r.signals| == |h.waiters| + 1
              && WokeInOrder(r.signals, 0, h.waiters, Registered, h.account)
              && r.signals[|r.signals| - 1] == RegisterEnded(Complete)
              && (forall i :: 0 <= i < |r.signals| ==> !r.signals[i].CreateAccountCalled?)
              && (h.waiters == [] ==> r.helper == h.(state := Some(Registered)))
    ensures h.account.Some? && h.account.value.publicAddress.Some?
            && !IsAccountRegistered(h.settings, h.account.value.publicAddress.value) ==>
              var address := h.account.value.publicAddress.value;
              && r.signals[0] == CreateAccountCalled(address)
              && (reply.Failed? ==> r == Stepped(h, [CreateAccountCalled(address), RegisterEnded(reply)]))
              && (reply.Complete? ==>
                    && r.helper.state == AfterWake(h.(state := Some(Registered), waiters := []), h.waiters).state
                    && r.helper.waiters == []
                    && r.helper.settings == h.settings[address := true]
                    && |r.signals| == |h.waiters| + 2
                    && WokeInOrder(r.signals, 1, h.waiters, Registered, h.account)
                    && r.signals[|r.signals| - 1] == RegisterEnded(Complete)
                    && IsAccountRegistered(r.helper.settings, address)
                    && (h.waiters == [] ==>
                          r.helper == h.(state := Some(Registered), settings := h.settings[address := true])))
  {
    match h.account
    case None => Stepped(h, [RegisterEnded(Failed(NullAccount))])
    case Some(account) =>
      match account.publicAddress
      case None =>
        var accepted := Accept(h, Deleted);
        Stepped(accepted.helper, accepted.signals + [RegisterEnded(Failed(UnableToRegister))])
      case Some(address) =>
        if IsAccountRegistered(h.settings, address) then
          // already registered: the server is not contacted again
          var accepted := Accept(h, Registered);
          Stepped(accepted.helper, accepted.signals + [RegisterEnded(Complete)])
        else
          match reply
          case Failed(f) => Stepped(h, [CreateAccountCalled(address), RegisterEnded(reply)])
          case Complete =>
            // doOnComplete: the state is published first, the flag is stored after
            var accepted := Accept(h, Registered);
            var stored := accepted.helper.(settings := accepted.helper.settings[address := true]);
            Stepped(stored, [CreateAccountCalled(address)] + accepted.signals + [RegisterEnded(Complete)])
  }

  /** register exactly as written on RxJava 2, where a `map` whose function returns null fails
      with a NullPointerException: a null public address never reaches the `address == null`
      branch, so the state is left as it was. */
  function RegisterAsWritten(h: Helper, reply: Completion): (r: Stepped)
    ensures h.account.Some? && h.account.value.publicAddress == None ==>
              && r.helper == h
              && r.signals == [RegisterEnded(Failed(NullAddress))]
              && Query(r.helper) == Query(h)
              && Register(h, reply).helper.state == Some(Deleted)
              && (h.state != Some(Deleted) ==> r.helper.state != Register(h, reply).helper.state)
    ensures !(h.account.Some? && h.account.value.publicAddress == None) ==> r == Register(h, reply)
  {
    if h.account.Some? && h.account.value.publicAddress == None then
      Stepped(h, [RegisterEnded(Failed(NullAddress))])
    else Register(h, reply)
  }

  /** onNewAccount: store the account, publish UNREGISTERED, then register it. */
  function OnNewAccount(h: Helper, account: KinAccount, reply: Completion): (r: Stepped)
    ensures r.helper.account == Some(account)
    ensures r.helper.state == Some(Unregistered) <==>
              && account.publicAddress.Some?
              && !IsAccountRegistered(h.settings, account.publicAddress.value)
              && reply.Failed?
    ensures r.helper.state != Some(Unregistered) ==> r.helper.waiters == []
    ensures |r.signals| > 0 && r.signals[|r.signals| - 1].RegisterEnded?
    ensures account.publicAddress.None? ==>
              && r.helper == h.(account := Some(account), state := Some(Deleted), waiters := [])
              && |r.signals| == |h.waiters| + 1
              && WokeInOrder(r.signals, 0, h.waiters, Deleted, Some(account))
              && r.signals[|r.signals| - 1] == RegisterEnded(Failed(UnableToRegister))
    ensures account.publicAddress.Some? && IsAccountRegistered(h.settings, account.publicAddress.value) ==>
              && r.helper == AfterWake(h.(account := Some(account), state := Some(Registered), waiters := []), h.waiters)
              && |r.signals| == |h.waiters| + 1
              && WokeInOrder(r.signals, 0, h.waiters, Registered, Some(account))
              && r.signals[|r.signals| - 1] == RegisterEnded(Complete)
    ensures account.publicAddress.Some? && !IsAccountRegistered(h.settings, account.publicAddress.value) ==>
              var address := account.publicAddress.value;
              && (reply.Failed? ==>
                    r == Stepped(h.(account := Some(account), state := Some(Unregistered)),
                                 [CreateAccountCalled(address), RegisterEnded(reply)]))
              && (reply.Complete? ==>
                    && r.helper.state
                       == AfterWake(h.(account := Some(account), state := Some(Registered), waiters := []), h.waiters).state
                    && r.helper.waiters == []
                    && r.helper.settings == h.settings[address := true]
                    && |r.signals| == |h.waiters| + 2
                    && r.signals[0] == CreateAccountCalled(address)
                    && WokeInOrder(r.signals, 1, h.waiters, Registered, Some(account))
                    && r.signals[|r.signals| - 1] == RegisterEnded(Complete))
  {
    var accepted := Accept(h.(account := Some(account)), Unregistered);
    var registered := Register(accepted.helper, reply);
    assert accepted.signals + registered.signals == registered.signals;
    Stepped(registered.helper, accepted.signals + registered.signals)
  }

  /** onNewAccount exactly as written: register is the RxJava 2 one, so a null public address
      leaves the account UNREGISTERED and every waiting operation queued. */
  function OnNewAccountAsWritten(h: Helper, account: KinAccount, reply: Completion): (r: Stepped)
    ensures r.helper.account == Some(account)
    ensures r.helper.state == Some(Unregistered) <==>
              || account.publicAddress.None?
              || (!IsAccountRegistered(h.settings, account.publicAddress.value) && reply.Failed?)
    ensures account.publicAddress.None? ==>
              r == Stepped(h.(account := Some(account), state := Some(Unregistered)),
                           [RegisterEnded(Failed(NullAddress))])
    ensures account.publicAddress.Some? ==> r == OnNewAccount(h, account, reply)
  {
    var accepted := Accept(h.(account := Some(account)), Unregistered);
    var registered := RegisterAsWritten(accepted.helper, reply);
    Stepped(registered.helper, accepted.signals + registered.signals)
  }

  /** delete: once getAccountIfRegistered yields the account, publish DELETED and clear the
      account's flag; a deleted account leaves everything as it was. */
  function Delete(h: Helper): (r: Stepped)
    ensures r.helper.account == h.account
    ensures h.state == Some(Registered) && h.account.Some? && h.account.value.publicAddress.Some? ==>
              var address := h.account.value.publicAddress.value;
              r == Stepped(h.(state := Some(Deleted), settings := h.settings[address := false]), [DeleteApplied(address)])
    ensures h.state == Some(Deleted) ==> r == Stepped(h, [DeleteFailed(AccountDeleted)])
    ensures !Settled(h.state) ==> r == Stepped(h.(waiters := h.waiters + [DeleteWaiter]), [])
  {
    Continue(h, DeleteWaiter, Query(h))
  }

  /** transferOut of an amount to the Psiphon wallet, the SDK and server outcomes given by `plan`. */
  function TransferOut(h: Helper, plan: TransferPlan): (r: Stepped)
    ensures r.helper.account == h.account && r.helper.state == h.state && r.helper.settings == h.settings
    ensures Settled(h.state) ==>
              && r.helper == h
              && |r.signals| == 1
              && r.signals[0].TransferEnded?
              && r.signals[0].completion == Complete
              && (r.signals[0].sent <==>
                    h.state == Some(Registered) && h.account.Some?
                    && plan.build.Ok? && plan.whitelist.Ok? && plan.send.Ok?)
    ensures !Settled(h.state) ==> r == Stepped(h.(waiters := h.waiters + [TransferWaiter(plan)]), [])
  {
    Continue(h, TransferWaiter(plan), Query(h))
  }
}

=== FILE: account_properties.dfy ===
/** Properties of the AccountHelper state machine that relate several steps or an independent
    description of the same behaviour. */
module AccountProperties {
  import opened AccountHelper

  /** The first relay value other than UNREGISTERED. */
  function FirstSettled(states: seq<AccountState>): (first: Option<AccountState>)
    ensures first != Some(Unregistered)
    decreases |states|
  {
    if |states| == 0 then None
    else if states[0] != Unregistered then Some(states[0])
    else FirstSettled(states[1..])
  }

  /** The answer promised for a subscriber that has seen `first` as its first settled value. */
  function AnswerFor(first: Option<AccountState>, account: Option<KinAccount>): Answer
  {
    match first
    case None => Pending
    case Some(Registered) => JustAccount(account)
    case Some(_) => Error(AccountDeleted)
  }

  /** The values the relay shows a new subscriber: its current value (if any), then later ones. */
  function Seen(current: Option<AccountState>, later: seq<AccountState>): seq<AccountState>
  {
    if current.Some? then [current.value] + later else later
  }

  lemma {:induction false} SettledStatesHead(states: seq<AccountState>)
    ensures |SettledStates(states)| > 0 <==> FirstSettled(states).Some?
    ensures |SettledStates(states)| > 0 ==> SettledStates(states)[0] == FirstSettled(states).value
    decreases |states|
  {
    if |states| > 0 {
      SettledStatesHead(states[1..]);
    }
  }

  /** getAccountIfRegistered answers by the first value other than UNREGISTERED the relay
      shows it: the account for REGISTERED, "account deleted" for DELETED, and it keeps
      waiting while there is none. */
  lemma GetAccountIfRegisteredAnswersFirstSettled(current: Option<AccountState>, later: seq<AccountState>, account: Option<KinAccount>)
    ensures GetAccountIfRegistered(current, later, account) == AnswerFor(FirstSettled(Seen(current, later)), account)
  {
    SettledStatesHead(Seen(current, later));
  }

  /** The states the helper can reach: a published state implies a stored account, and
      nothing waits once the state is settled. */
  predicate Valid(h: Helper)
  {
    && (h.state.Some? ==> h.account.Some?)
    && (Settled(h.state) ==> h.waiters == [])
  }

  /** A freshly constructed helper is consistent, so every reachable helper is. */
  lemma InitValid(settings: map<Address, bool>)
    ensures Valid(Init(settings))
    ensures Init(settings).settings == settings && Query(Init(settings)) == Pending
  {
  }

  lemma StepsPreserveValid(h: Helper, account: KinAccount, reply: Completion, plan: TransferPlan)
    requires Valid(h)
    ensures Valid(OnNewAccount(h, account, reply).helper)
    ensures Valid(OnNewAccountAsWritten(h, account, reply).helper)
    ensures Valid(Register(h, reply).helper)
    ensures Valid(RegisterAsWritten(h, reply).helper)
    ensures Valid(Delete(h).helper)
    ensures Valid(TransferOut(h, plan).helper)
  {
  }

  predicate TransfersComplete(signals: seq<Signal>)
  {
    forall i :: 0 <= i < |signals| && signals[i].TransferEnded? ==> signals[i].completion == Complete
  }

  lemma TransfersCompleteAppend(a: seq<Signal>, b: seq<Signal>)
    requires TransfersComplete(a) && TransfersComplete(b)
    ensures TransfersComplete(a + b)
  {
    forall i | 0 <= i < |a + b| && (a + b)[i].TransferEnded?
      ensures (a + b)[i].completion == Complete
    {
      if i < |a| { assert (a + b)[i] == a[i]; } else { assert (a + b)[i] == b[i - |a|]; }
    }
  }

  /** transferOut never signals failure, whether it runs at once or waits for a later step;
      no step of the helper ends a transfer with an error. */
  lemma TransferOutNeverFails(h: Helper, account: KinAccount, reply: Completion, plan: TransferPlan)
    ensures TransfersComplete(TransferOut(h, plan).signals)
    ensures TransfersComplete(Delete(h).signals)
    ensures TransfersComplete(Register(h, reply).signals)
    ensures TransfersComplete(OnNewAccount(h, account, reply).signals)
    ensures TransfersComplete(RegisterAsWritten(h, reply).signals)
    ensures TransfersComplete(OnNewAccountAsWritten(h, account, reply).signals)
  {
    RegisterTransfersComplete(h, reply);
    var accepted := Accept(h.(account := Some(account)), Unregistered);
    RegisterTransfersComplete(accepted.helper, reply);
    TransfersCompleteAppend(accepted.signals, Register(accepted.helper, reply).signals);
  }

  lemma RegisterTransfersComplete(h: Helper, reply: Completion)
    ensures TransfersComplete(Register(h, reply).signals)
  {
    if h.account.Some? {
      var ended := [RegisterEnded(if h.account.value.publicAddress.None? then Failed(UnableToRegister) else Complete)];
      if h.account.value.publicAddress.None? {
        TransfersCompleteAppend(Accept(h, Deleted).signals, ended);
      } else {
        var address := h.account.value.publicAddress.value;
        var accepted := Accept(h, Registered);
        TransfersCompleteAppend(accepted.signals, ended);
        if !IsAccountRegistered(h.settings, address) && reply.Complete? {
          TransfersCompleteAppend([CreateAccountCalled(address)], accepted.signals + ended);
          assert [CreateAccountCalled(address)] + accepted.signals + ended
              == [CreateAccountCalled(address)] + (accepted.signals + ended);
        }
      }
    }
  }

  /** The relay receiving `later`, one value after another. */
  function AcceptAll(h: Helper, later: seq<AccountState>): Stepped
    decreases |later|
  {
    if |later| == 0 then Stepped(h, [])
    else
      var first := Accept(h, later[0]);
      var rest := AcceptAll(first.helper, later[1..]);
      Stepped(rest.helper, first.signals + rest.signals)
  }

  /** Once nothing waits, publishing states wakes nothing. */
  lemma {:induction false} AcceptAllQuiet(h: Helper, later: seq<AccountState>)
    requires h.waiters == []
    ensures AcceptAll(h, later).signals == [] && AcceptAll(h, later).helper.waiters == []
    decreases |later|
  {
    if |later| > 0 {
      AcceptAllQuiet(Accept(h, later[0]).helper, later[1..]);
    }
  }

  /** An operation queued on an unsettled state runs exactly once, with the answer
      getAccountIfRegistered gives a subscriber that saw the state at queueing time and then the
      published values `later`; while that answer is pending it stays queued and signals nothing. */
  lemma {:induction false} QueuedWaiterRuns(h: Helper, w: Waiter, later: seq<AccountState>)
    requires !Settled(h.state) && h.waiters == [w]
    ensures var r := AcceptAll(h, later);
            var answer := GetAccountIfRegistered(h.state, later, h.account);
            && (answer.Pending? ==> r.signals == [] && r.helper.waiters == [w])
            && (!answer.Pending? ==> r.signals == [WaiterSignal(w, answer)] && r.helper.waiters == [])
    decreases |later|
  {
    GetAccountIfRegisteredAnswersFirstSettled(h.state, later, h.account);
    if |later| == 0 {
      assert Query(h).Pending?;
    } else {
      var first := Accept(h, later[0]);
      if later[0] == Unregistered {
        QueuedWaiterRuns(first.helper, w, later[1..]);
        GetAccountIfRegisteredAnswersFirstSettled(first.helper.state, later[1..], h.account);
        FirstSettledSkip(h.state, later);
        FirstSettledSkip(first.helper.state, later[1..]);
        assert FirstSettled(Seen(h.state, later)) == FirstSettled(Seen(first.helper.state, later[1..]));
      } else {
        AcceptAllQuiet(first.helper, later[1..]);
        FirstSettledSkip(h.state, later);
      }
    }
  }

  /** Every operation queued on an unsettled state runs exactly once, in queue order, as soon as
      the relay receives a value other than UNREGISTERED. The operation at position `i` receives
      the answer of that value, unless a delete ahead of it went through and published DELETED
      first. Until then, all of them stay queued and nothing is signalled. */
  lemma {:induction false} QueuedWaitersRun(h: Helper, later: seq<AccountState>)
    requires !Settled(h.state)
    ensures var r := AcceptAll(h, later);
            var first := FirstSettled(later);
            && (first.None? ==> r.signals == [] && r.helper.waiters == h.waiters)
            && (first.Some? ==>
                  && r.helper.waiters == []
                  && |r.signals| == |h.waiters|
                  && forall i :: 0 <= i < |h.waiters| ==>
                       r.signals[i] == WaiterSignal(h.waiters[i], WaiterAnswer(first.value, h.account, h.waiters, i)))
    decreases |later|
  {
    if |later| > 0 {
      var accepted := Accept(h, later[0]);
      if later[0] == Unregistered {
        QueuedWaitersRun(accepted.helper, later[1..]);
      } else {
        AcceptAllQuiet(accepted.helper, later[1..]);
        assert accepted.signals + [] == accepted.signals;
      }
    }
  }

  /** A transfer queued behind a delete is answered "account deleted" when the relay then receives
      REGISTERED: the delete goes first and republishes DELETED, so the transfer is never sent. */
  lemma TransferBehindDeleteUnsent(h: Helper, plan: TransferPlan, later: seq<AccountState>)
    requires !Settled(h.state) && h.waiters == []
    requires DeletesAccount(h.account)
    requires FirstSettled(later) == Some(Registered)
    ensures var queued := TransferOut(Delete(h).helper, plan).helper;
            var r := AcceptAll(queued, later);
            && queued.waiters == [DeleteWaiter, TransferWaiter(plan)]
            && r.signals == [DeleteApplied(h.account.value.publicAddress.value),
                             Transfer(Error(AccountDeleted), plan)]
            && !r.signals[1].sent
  {
    var queued := TransferOut(Delete(h).helper, plan).helper;
    QueuedWaitersRun(queued, later);
    assert DeleteWaiter in queued.waiters[..1];
  }

  /** In particular a transfer queued before the account settles ends, and ends without failure. */
  lemma QueuedTransferRuns(h: Helper, plan: TransferPlan, later: seq<AccountState>)
    requires !Settled(h.state) && h.waiters == []
    requires exists i :: 0 <= i < |later| && later[i] != Unregistered
    ensures var r := AcceptAll(TransferOut(h, plan).helper, later);
            && |r.signals| == 1
            && r.signals[0].TransferEnded?
            && r.signals[0].completion == Complete
            && (r.signals[0].sent <==>
                  GetAccountIfRegistered(h.state, later, h.account).Account?
                  && plan.build.Ok? && plan.whitelist.Ok? && plan.send.Ok?)
  {
    var i :| 0 <= i < |later| && later[i] != Unregistered;
    FirstSettledFound(later, i);
    GetAccountIfRegisteredAnswersFirstSettled(h.state, later, h.account);
    FirstSettledSkip(h.state, later);
    QueuedWaiterRuns(TransferOut(h, plan).helper, TransferWaiter(plan), later);
  }

  lemma {:induction false} FirstSettledFound(states: seq<AccountState>, i: nat)
    requires i < |states| && states[i] != Unregistered
    ensures FirstSettled(states).Some?
    decreases |states|
  {
    if states[0] == Unregistered {
      FirstSettledFound(states[1..], i - 1);
    }
  }

  /** An unsettled current value does not change which value settles first. */
  lemma FirstSettledSkip(current: Option<AccountState>, later: seq<AccountState>)
    requires !Settled(current)
    ensures FirstSettled(Seen(current, later)) == FirstSettled(later)
  {
    if current.Some? {
      assert Seen(current, later)[1..] == later;
    }
  }

  /** A delete waiting on an UNREGISTERED account runs when the relay next receives a settled
      state, and acts on that state alone. */
  lemma PendingDeleteResolvedBySettledState(h: Helper, s: AccountState)
    requires !Settled(h.state) && h.waiters == []
    requires s != Unregistered
    ensures var waiting := Delete(h).helper;
            var r := Accept(waiting, s);
            && waiting.waiters == [DeleteWaiter]
            && (s == Deleted ==>
                  r == Stepped(h.(state := Some(Deleted)), [DeleteFailed(AccountDeleted)]))
            && (s == Registered && h.account.Some? && h.account.value.publicAddress.Some? ==>
                  var address := h.account.value.publicAddress.value;
                  r == Stepped(h.(state := Some(Deleted), settings := h.settings[address := false]),
                               [DeleteApplied(address)]))
  {
    var waiting := Delete(h).helper;
    var published := waiting.(state := Some(s), waiters := []);
    var first := Continue(published, DeleteWaiter, Query(published));
    assert Wake(first.helper, []) == Stepped(first.helper, []);
    assert [DeleteWaiter][1..] == [];
    assert first.signals + [] == first.signals;
    assert Accept(waiting, s) == Wake(published, [DeleteWaiter]) == first;
  }

  /** A delete issued while the first registration is still open is run by it: the delete sees
      REGISTERED and publishes DELETED, and register then stores the "registered" flag, so the
      account ends DELETED with its flag set. */
  lemma DeleteDuringRegistration(h: Helper)
    requires h.state == Some(Unregistered) && h.waiters == []
    requires h.account.Some? && h.account.value.publicAddress.Some?
    requires !IsAccountRegistered(h.settings, h.account.value.publicAddress.value)
    ensures var address := h.account.value.publicAddress.value;
            var d := Delete(h);
            var r := Register(d.helper, Complete);
            && d.signals == []
            && r.signals == [CreateAccountCalled(address), DeleteApplied(address), RegisterEnded(Complete)]
            && r.helper.state == Some(Deleted)
            && IsAccountRegistered(r.helper.settings, address)
            && Query(r.helper) == Error(AccountDeleted)
  {
    var d := Delete(h);
    PendingDeleteResolvedBySettledState(h, Registered);
  }

  /** Registration that publishes REGISTERED runs a queued delete wherever it stands in the queue:
      the first delete goes through, so the account ends DELETED. Its flag ends cleared when it was
      already set, but set when the server was contacted, since the flag is stored after
      publication. */
  lemma RegisterAppliesQueuedDelete(h: Helper, reply: Completion, j: nat)
    requires DeletesAccount(h.account)
    requires j < |h.waiters| && h.waiters[j] == DeleteWaiter && DeleteWaiter !in h.waiters[..j]
    requires IsAccountRegistered(h.settings, h.account.value.publicAddress.value) || reply.Complete?
    ensures var address := h.account.value.publicAddress.value;
            var r := Register(h, reply);
            var k := if IsAccountRegistered(h.settings, address) then 0 else 1;
            && r.helper.state == Some(Deleted)
            && Query(r.helper) == Error(AccountDeleted)
            && r.helper.waiters == []
            && r.signals[k + j] == DeleteApplied(address)
            && (forall i :: 0 <= i < |r.signals| && i != k + j ==> !r.signals[i].DeleteApplied?)
            && (IsAccountRegistered(h.settings, address) ==> !IsAccountRegistered(r.helper.settings, address))
            && (!IsAccountRegistered(h.settings, address) ==> IsAccountRegistered(r.helper.settings, address))
  {
    var address := h.account.value.publicAddress.value;
    var r := Register(h, reply);
    var k := if IsAccountRegistered(h.settings, address) then 0 else 1;
    assert DeleteWaiter in h.waiters;
    DeleteAppliedOnce(r.signals, k, h.waiters, h.account, j);
  }

  /** A register run on REGISTERED signals an optional server call, the waiters' signals and its
      own end; of these, only the first delete's is `DeleteApplied`. */
  lemma DeleteAppliedOnce(signals: seq<Signal>, k: nat, ws: seq<Waiter>, account: Option<KinAccount>, j: nat)
    requires WokeInOrder(signals, k, ws, Registered, account) && DeletesAccount(account)
    requires |signals| == k + |ws| + 1 && k <= 1
    requires k == 1 ==> signals[0].CreateAccountCalled?
    requires signals[|signals| - 1].RegisterEnded?
    requires j < |ws| && ws[j] == DeleteWaiter && DeleteWaiter !in ws[..j]
    ensures signals[k + j] == DeleteApplied(account.value.publicAddress.value)
    ensures forall i :: 0 <= i < |signals| && i != k + j ==> !signals[i].DeleteApplied?
  {
    OnlyFirstDeleteApplied(ws, account, j);
    forall i | 0 <= i < |signals| && i != k + j
      ensures !signals[i].DeleteApplied?
    {
      if k <= i < k + |ws| {
        var n := i - k;
        assert signals[k + n] == WaiterSignal(ws[n], WaiterAnswer(Registered, account, ws, n));
      }
    }
  }

  /** Of the waiters run on REGISTERED, only the first delete ends with `DeleteApplied`. */
  lemma OnlyFirstDeleteApplied(ws: seq<Waiter>, account: Option<KinAccount>, j: nat)
    requires DeletesAccount(account)
    requires j < |ws| && ws[j] == DeleteWaiter && DeleteWaiter !in ws[..j]
    ensures WaiterSignal(ws[j], WaiterAnswer(Registered, account, ws, j)) == DeleteApplied(account.value.publicAddress.value)
    ensures forall n :: 0 <= n < |ws| && n != j ==> !WaiterSignal(ws[n], WaiterAnswer(Registered, account, ws, n)).DeleteApplied?
  {
    forall n | 0 <= n < |ws| && n != j
      ensures !WaiterSignal(ws[n], WaiterAnswer(Registered, account, ws, n)).DeleteApplied?
    {
      if n < j {
        assert ws[n] == ws[..j][n];
      } else {
        assert ws[..n][j] == DeleteWaiter;
      }
    }
  }

  /** With a null public address, registration ends every wait: queries answer "account
      deleted" and every waiting operation has run. */
  lemma RegisterNullAddressEndsWaiting(h: Helper, reply: Completion)
    requires h.account.Some? && h.account.value.publicAddress == None
    ensures var r := Register(h, reply);
            && Query(r.helper) == Error(AccountDeleted)
            && r.helper.waiters == []
  {
  }

  /** As written, the same registration leaves a query on an UNREGISTERED account waiting. */
  lemma RegisterAsWrittenLeavesQueryPending(settings: map<Address, bool>, reply: Completion)
    ensures var h := Helper(Some(KinAccount(None)), Some(Unregistered), settings, [DeleteWaiter]);
            && Query(RegisterAsWritten(h, reply).helper) == Pending
            && RegisterAsWritten(h, reply).helper.waiters == [DeleteWaiter]
            && Query(Register(h, reply).helper) == Error(AccountDeleted)
  {
  }
}

=== FILE: psicash_lanes.dfy ===
/** The six lane processors of PsiCashActionProcessorHolder, each for one action instance.

    Every lane is written as the same operator chain as the Java lambda it models; the
    contracts state the result sequence that chain produces for every outcome of the
    external call. The listener is present or null (`hasListener`).
 */
module PsiCashLanes {
  import opened Rx
  import opened PsiCashModel

  type Run = Traced<PsiCashResult, Notification>

  /** Every result a mapper emits carries exactly the listener calls `Notified` promises. */
  ghost predicate NotifiesAsPromised<T(!new)>(f: T -> Step<PsiCashResult, Notification>)
  {
    forall x :: f(x).Emit? ==> f(x).effects == Notified([f(x).value])
  }

  ghost predicate Silent<T(!new)>(f: T -> Step<PsiCashResult, Notification>)
  {
    forall x :: f(x).Emit? ==> f(x).effects == []
  }

  lemma {:induction false} MapNotifies<T(!new)>(s: Stream<T>, f: T -> Step<PsiCashResult, Notification>)
    requires NotifiesAsPromised(f)
    ensures Map(s, f).effects == Notified(Map(s, f).stream.items)
    decreases |s.items|
  {
    if |s.items| > 0 && f(s.items[0]).Emit? {
      var tail := Stream(s.items[1..], s.end);
      MapNotifies(tail, f);
      NotifiedAppend([f(s.items[0]).value], Map(tail, f).stream.items);
    }
  }

  lemma {:induction false} MapSilent<T(!new)>(s: Stream<T>, f: T -> Step<PsiCashResult, Notification>)
    requires Silent(f)
    ensures Map(s, f).effects == []
    decreases |s.items|
  {
    if |s.items| > 0 && f(s.items[0]).Emit? {
      MapSilent(Stream(s.items[1..], s.end), f);
    }
  }

  /** `map` over the single-value stream of an external call. */
  lemma MapCall<T, U, X>(call: Call<T>, f: T -> Step<U, X>)
    ensures Map(FromCall(call), f) ==
              match call
              case Err(e) => Traced(Stream([], Errored(e)), [])
              case Ok(v) =>
                match f(v)
                case Emit(u, fx) => Traced(Stream([u], Completed), fx)
                case Throw(e) => Traced(Stream([], Errored(e)), [])
  {
    if call.Ok? && f(call.value).Emit? {
      var s := FromCall(call);
      assert s.items[1..] == [];
      var rest := Map(Stream(s.items[1..], s.end), f);
      assert rest == Traced(Stream([], Completed), []);
    }
  }

  /** `actions.map(a -> ClearErrorState.success())` for one action. */
  function ClearErrorStateLane(): (r: Run)
    ensures r.stream == Stream([ClearErrorStateSuccess], Completed)
    ensures r.effects == [] == Notified(r.stream.items)
  {
    var f := (a: PsiCashAction) => Emit(ClearErrorStateSuccess, []);
    assert Just(ClearErrorState) == FromCall(Ok(ClearErrorState));
    MapCall(Ok(ClearErrorState), f);
    NotifiedQuiet([ClearErrorStateSuccess]);
    Map(Just(ClearErrorState), f)
  }

  function ToGetPsiCashSuccess(d: PsiCashData): Step<PsiCashResult, Notification>
  {
    Emit(GetPsiCashSuccess(d), [])
  }

  /** The chain shared by the GetPsiCashRemote, GetPsiCashLocal and RemovePurchases lanes:
      `call.map(GetPsiCash::success).onErrorReturn(GetPsiCash::failure).startWith(inFlight())`. */
  function GetPsiCashLane(call: Call<PsiCashData>): (r: Run)
    ensures r.stream.end == Completed
    ensures |r.stream.items| == 2 && r.stream.items[0] == GetPsiCashInFlight
    ensures call.Ok? ==> r.stream.items[1] == GetPsiCashSuccess(call.value)
    ensures call.Err? ==> r.stream.items[1] == GetPsiCashFailure(call.error)
    ensures r.effects == [] == Notified(r.stream.items)
  {
    MapCall(call, ToGetPsiCashSuccess);
    var mapped := Map(FromCall(call), ToGetPsiCashSuccess);
    var recovered := OnErrorReturn(mapped.stream, e => GetPsiCashFailure(e));
    var r := Traced(StartWith(recovered, GetPsiCashInFlight), mapped.effects);
    NotifiedQuiet(r.stream.items);
    r
  }

  /** The `map` of the MakeExpiringPurchase lane. */
  function PurchaseMapper(hasListener: bool, p: PurchasePayload): Step<PsiCashResult, Notification>
  {
    match p
    case ExpiringPurchasePayload(rec) =>
      Emit(ExpiringPurchaseSuccess(rec), if hasListener then [NewExpiringPurchase(rec.expiringPurchase)] else [])
    case PsiCashPayload(d) => Emit(GetPsiCashSuccess(d), [])
    case OtherPayload(text) => Throw(IllegalArgument(UnknownResultPrefix + text))
  }

  function PurchaseMapperFor(hasListener: bool): PurchasePayload -> Step<PsiCashResult, Notification>
  {
    p => PurchaseMapper(hasListener, p)
  }

  /** `makeExpiringPurchase(...).map(...).onErrorReturn(ExpiringPurchase::failure)
      .startWith(ExpiringPurchase.inFlight())` for one action. */
  function MakeExpiringPurchaseLane(call: Call<PurchasePayload>, hasListener: bool): (r: Run)
    ensures r.stream.end == Completed
    ensures |r.stream.items| == 2 && r.stream.items[0] == ExpiringPurchaseInFlight
    ensures call.Err? ==> r.stream.items[1] == ExpiringPurchaseFailure(call.error)
    ensures call.Ok? && call.value.ExpiringPurchasePayload? ==>
              r.stream.items[1] == ExpiringPurchaseSuccess(call.value.record)
    ensures call.Ok? && call.value.PsiCashPayload? ==>
              r.stream.items[1] == GetPsiCashSuccess(call.value.data)
    ensures call.Ok? && call.value.OtherPayload? ==>
              r.stream.items[1] == ExpiringPurchaseFailure(IllegalArgument(UnknownResultPrefix + call.value.text))
    ensures hasListener ==> r.effects == Notified(r.stream.items)
    ensures !hasListener ==> r.effects == []
  {
    var f := PurchaseMapperFor(hasListener);
    MapCall(call, f);
    var mapped := Map(FromCall(call), f);
    var recovered := OnErrorReturn(mapped.stream, e => ExpiringPurchaseFailure(e));
    var r := Traced(StartWith(recovered, ExpiringPurchaseInFlight), mapped.effects);
    assert hasListener ==> r.effects == Notified(r.stream.items) by {
      if hasListener {
        assert Notified(r.stream.items) == Notified(r.stream.items[1..]);
        assert Notified(r.stream.items[1..]) == Notified([r.stream.items[1]]);
      }
    }
    r
  }

  /** The `map` of the LoadVideoAd lane. The listener is used without a null check. */
  function VideoMapper(hasListener: bool, e: VideoEvent): Step<PsiCashResult, Notification>
  {
    match e
    case RewardedVideoState(Loaded) => Emit(VideoLoaded, [])
    case RewardedVideoState(Playing) => Emit(VideoPlaying, [])
    case RewardedVideoState(OtherVideoState(text)) => Throw(IllegalArgument(UnknownResultPrefix + text))
    case Reward(rw) =>
      if hasListener then Emit(RewardSuccess(rw), [NewReward(rw.amount)]) else Throw(NullPointer)
    case OtherEvent(text) => Throw(IllegalArgument(UnknownResultPrefix + text))
  }

  function VideoMapperFor(hasListener: bool): VideoEvent -> Step<PsiCashResult, Notification>
  {
    e => VideoMapper(hasListener, e)
  }

  /** The terminal result of a video load whose mapper accepted the first `k` events. */
  function VideoTerminal(source: Stream<VideoEvent>, hasListener: bool, k: nat): PsiCashResult
    requires k <= |source.items|
    requires k < |source.items| ==> VideoMapper(hasListener, source.items[k]).Throw?
  {
    if k < |source.items| then VideoFailure(VideoMapper(hasListener, source.items[k]).error)
    else match source.end
      case Completed => VideoFinished
      case Errored(e) => VideoFailure(e)
  }

  function ToVideoFailure(e: Throwable): PsiCashResult
  {
    VideoFailure(e)
  }

  /** The operator chain of the LoadVideoAd lane around its mapped event stream. */
  function VideoChain(mapped: Stream<PsiCashResult>): Stream<PsiCashResult>
  {
    OnErrorReturn(ConcatWith(StartWith(mapped, VideoLoading), Just(VideoFinished)), ToVideoFailure)
  }

  /** What the chain adds around the mapped events: the marker first, one terminal last. */
  function ChainTerminal(mapped: Stream<PsiCashResult>): PsiCashResult
  {
    match mapped.end
    case Completed => VideoFinished
    case Errored(e) => VideoFailure(e)
  }

  lemma VideoChainOf(mapped: Stream<PsiCashResult>)
    ensures VideoChain(mapped) == Stream([VideoLoading] + mapped.items + [ChainTerminal(mapped)], Completed)
  {
  }

  lemma VideoMapperFacts(hasListener: bool)
    ensures hasListener ==> NotifiesAsPromised(VideoMapperFor(hasListener))
    ensures !hasListener ==> Silent(VideoMapperFor(hasListener))
    ensures forall e :: VideoMapperFor(hasListener)(e).Emit? ==>
              IsVideoProgress(VideoMapperFor(hasListener)(e).value)
              && (!hasListener ==> !VideoMapperFor(hasListener)(e).value.RewardSuccess?)
  {
  }

  lemma VideoMappedTerminal(source: Stream<VideoEvent>, hasListener: bool)
    ensures var mapped := Map(source, VideoMapperFor(hasListener)).stream;
            ChainTerminal(mapped) == VideoTerminal(source, hasListener, |mapped.items|)
  {
  }

  lemma VideoLaneItems(source: Stream<VideoEvent>, hasListener: bool)
    ensures var k := Accepted(VideoMapperFor(hasListener), source.items);
            var out := VideoChain(Map(source, VideoMapperFor(hasListener)).stream);
            && out.end == Completed
            && |out.items| == k + 2
            && out.items[0] == VideoLoading
            && (forall i :: 1 <= i <= k ==>
                  out.items[i] == VideoMapper(hasListener, source.items[i - 1]).value
                  && IsVideoProgress(out.items[i]))
            && out.items[k + 1] == VideoTerminal(source, hasListener, k)
  {
    var f := VideoMapperFor(hasListener);
    var mapped := Map(source, f).stream;
    var out := VideoChain(mapped);
    VideoChainOf(mapped);
    VideoMapperFacts(hasListener);
    VideoMappedTerminal(source, hasListener);
    forall i | 1 <= i <= |mapped.items|
      ensures out.items[i] == VideoMapper(hasListener, source.items[i - 1]).value
      ensures IsVideoProgress(out.items[i])
    {
      assert out.items[i] == mapped.items[i - 1];
      assert f(source.items[i - 1]).Emit?;
    }
  }

  lemma VideoMapperProgress(hasListener: bool, e: VideoEvent)
    ensures VideoMapper(hasListener, e).Emit? ==> IsVideoProgress(VideoMapper(hasListener, e).value)
  {
  }

  lemma FinishedOnlyLast(xs: seq<PsiCashResult>, t: PsiCashResult)
    requires forall i :: 0 <= i < |xs| ==> xs[i] != VideoFinished
    ensures VideoFinished in [VideoLoading] + xs + [t] <==> t == VideoFinished
  {
  }

  lemma VideoLaneFinished(source: Stream<VideoEvent>, hasListener: bool)
    ensures VideoFinished in VideoChain(Map(source, VideoMapperFor(hasListener)).stream).items <==>
              Accepted(VideoMapperFor(hasListener), source.items) == |source.items| && source.end.Completed?
  {
    var f := VideoMapperFor(hasListener);
    var mapped := Map(source, f).stream;
    VideoChainOf(mapped);
    forall i | 0 <= i < |mapped.items|
      ensures mapped.items[i] != VideoFinished
    {
      assert mapped.items[i] == VideoMapper(hasListener, source.items[i]).value;
      VideoMapperProgress(hasListener, source.items[i]);
    }
    FinishedOnlyLast(mapped.items, ChainTerminal(mapped));
  }

  lemma VideoLaneNotifies(source: Stream<VideoEvent>, hasListener: bool)
    ensures var mapped := Map(source, VideoMapperFor(hasListener));
            var out := VideoChain(mapped.stream);
            && (hasListener ==> mapped.effects == Notified(out.items))
            && (!hasListener ==> mapped.effects == [] && forall i :: 0 <= i < |out.items| ==> !out.items[i].RewardSuccess?)
  {
    var f := VideoMapperFor(hasListener);
    var mapped := Map(source, f);
    var out := VideoChain(mapped.stream);
    VideoChainOf(mapped.stream);
    VideoMapperFacts(hasListener);
    if hasListener {
      MapNotifies(source, f);
      NotifiedAppend([VideoLoading], mapped.stream.items);
      NotifiedAppend([VideoLoading] + mapped.stream.items, [ChainTerminal(mapped.stream)]);
    } else {
      MapSilent(source, f);
      forall i | 0 <= i < |out.items|
        ensures !out.items[i].RewardSuccess?
      {
        if 1 <= i <= |mapped.stream.items| {
          assert out.items[i] == mapped.stream.items[i - 1];
          assert f(source.items[i - 1]).Emit?;
        }
      }
    }
  }

  /** `loadRewardedVideo(...).map(...).startWith(Video.loading())
      .concatWith(just(Video.finished())).onErrorReturn(Video::failure)` for one action. */
  function LoadVideoAdLane(source: Stream<VideoEvent>, hasListener: bool): (r: Run)
    ensures r.stream.end == Completed
    ensures var k := Accepted(VideoMapperFor(hasListener), source.items);
            && |r.stream.items| == k + 2
            && r.stream.items[0] == VideoLoading
            && (forall i :: 1 <= i <= k ==>
                  r.stream.items[i] == VideoMapper(hasListener, source.items[i - 1]).value
                  && IsVideoProgress(r.stream.items[i]))
            && r.stream.items[k + 1] == VideoTerminal(source, hasListener, k)
    ensures VideoFinished in r.stream.items <==>
              Accepted(VideoMapperFor(hasListener), source.items) == |source.items| && source.end.Completed?
    ensures hasListener ==> r.effects == Notified(r.stream.items)
    ensures !hasListener ==> r.effects == [] && forall i :: 0 <= i < |r.stream.items| ==> !r.stream.items[i].RewardSuccess?
  {
    var mapped := Map(source, VideoMapperFor(hasListener));
    VideoLaneItems(source, hasListener);
    VideoLaneFinished(source, hasListener);
    VideoLaneNotifies(source, hasListener);
    Traced(VideoChain(mapped.stream), mapped.effects)
  }
}

=== FILE: psicash_model.dfy ===
/** The PsiCash action and result vocabulary: what the view issues, what the external
    clients answer, what the processor emits and which listener calls it makes. */
module PsiCashModel {
  import opened Rx

  const UnknownResultPrefix := "Unknown result: "
  const UnknownActionPrefix := "Unknown action: "

  /** The tunnel state passed through to the clients; opaque to the processor. */
  datatype ConnectionState = ConnectionState(name: string)

  /** PsiCashModel.PsiCash: a balance snapshot, opaque to the processor. */
  datatype PsiCashData = PsiCashData(balance: int)

  datatype Purchase = Purchase(id: string)

  /** PsiCashModel.ExpiringPurchase: wraps the purchase handed to the listener. */
  datatype ExpiringPurchaseRecord = ExpiringPurchaseRecord(expiringPurchase: Purchase)

  /** PsiCashModel.Reward */
  datatype RewardRecord = RewardRecord(amount: int)

  /** What makeExpiringPurchase may deliver; `text` is the toString of any other object. */
  datatype PurchasePayload =
    | ExpiringPurchasePayload(record: ExpiringPurchaseRecord)
    | PsiCashPayload(data: PsiCashData)
    | OtherPayload(text: string)

  /** RewardedVideoState.VideoState. For any other constant, `text` stands for the toString of
      the whole RewardedVideoState event that carries it, which is what the error message shows. */
  datatype VideoState = Loaded | Playing | OtherVideoState(text: string)

  /** What loadRewardedVideo may deliver. */
  datatype VideoEvent =
    | RewardedVideoState(videoState: VideoState)
    | Reward(reward: RewardRecord)
    | OtherEvent(text: string)

  /** PsiCashAction; `UnknownAction` stands for any other subclass, shown by its toString. */
  datatype PsiCashAction =
    | ClearErrorState
    | GetPsiCashRemote(connectionState: ConnectionState)
    | GetPsiCashLocal
    | MakeExpiringPurchase(connectionState: ConnectionState, purchasePrice: int, hasActiveBoost: bool)
    | RemovePurchases(purchases: seq<string>)
    | LoadVideoAd(connectionState: ConnectionState)
    | UnknownAction(text: string)

  /** PsiCashResult, flattened: one constructor per factory method of each result family. */
  datatype PsiCashResult =
    | ClearErrorStateSuccess
    | GetPsiCashInFlight
    | GetPsiCashSuccess(data: PsiCashData)
    | GetPsiCashFailure(error: Throwable)
    | ExpiringPurchaseInFlight
    | ExpiringPurchaseSuccess(record: ExpiringPurchaseRecord)
    | ExpiringPurchaseFailure(error: Throwable)
    | VideoLoading
    | VideoLoaded
    | VideoPlaying
    | VideoFinished
    | VideoFailure(error: Throwable)
    | RewardSuccess(reward: RewardRecord)

  /** A call made on the PsiCashListener. */
  datatype Notification =
    | NewExpiringPurchase(purchase: Purchase)
    | NewReward(amount: int)

  predicate IsGetPsiCash(r: PsiCashResult)
  {
    r.GetPsiCashInFlight? || r.GetPsiCashSuccess? || r.GetPsiCashFailure?
  }

  predicate IsExpiringPurchase(r: PsiCashResult)
  {
    r.ExpiringPurchaseInFlight? || r.ExpiringPurchaseSuccess? || r.ExpiringPurchaseFailure?
  }

  predicate IsVideo(r: PsiCashResult)
  {
    r.VideoLoading? || r.VideoLoaded? || r.VideoPlaying? || r.VideoFinished?
    || r.VideoFailure? || r.RewardSuccess?
  }

  /** A video result that may sit between `VideoLoading` and the terminal result. */
  predicate IsVideoProgress(r: PsiCashResult)
  {
    r.VideoLoaded? || r.VideoPlaying? || r.RewardSuccess?
  }

  /** The listener calls that a result sequence promises: one `NewExpiringPurchase` per
      `ExpiringPurchaseSuccess` and one `NewReward` per `RewardSuccess`, in order. */
  function Notified(results: seq<PsiCashResult>): seq<Notification>
    decreases |results|
  {
    if |results| == 0 then []
    else
      var head :=
        match results[0]
        case ExpiringPurchaseSuccess(rec) => [NewExpiringPurchase(rec.expiringPurchase)]
        case RewardSuccess(rw) => [NewReward(rw.amount)]
        case _ => [];
      head + Notified(results[1..])
  }

  lemma {:induction false} NotifiedAppend(a: seq<PsiCashResult>, b: seq<PsiCashResult>)
    ensures Notified(a + b) == Notified(a) + Notified(b)
    decreases |a|
  {
    if |a| == 0 {
      assert a + b == b;
    } else {
      assert (a + b)[1..] == a[1..] + b;
      NotifiedAppend(a[1..], b);
    }
  }

  /** Results other than the two successes promise no listener call. */
  lemma {:induction false} NotifiedQuiet(results: seq<PsiCashResult>)
    requires forall i :: 0 <= i < |results| ==>
               !results[i].ExpiringPurchaseSuccess? && !results[i].RewardSuccess?
    ensures Notified(results) == []
    decreases |results|
  {
    if |results| > 0 {
      NotifiedQuiet(results[1..]);
    }
  }
}

=== FILE: psicash_processor.dfy ===
/** The `actionProcessor` of PsiCashActionProcessorHolder: the shared action stream is seen
    by six typed lanes and a catch-all, and their outputs are merged into one result stream.

    The merged stream is modelled under the schedule in which every action's results are
    delivered before the next action arrives; interleavings across actions are not modelled.
 */
module PsiCashProcessor {
  import opened Rx
  import opened PsiCashModel
  import opened PsiCashLanes

  /** The seven subscribers of the shared action stream, in the order they are merged. */
  datatype Lane =
    | ClearErrorStateProcessor
    | MakeExpiringPurchaseProcessor
    | GetPsiCashLocalProcessor
    | RemovePurchasesProcessor
    | GetPsiCashRemoteProcessor
    | LoadVideoAdProcessor
    | NotImplemented

  /** The filter each subscriber applies to the shared stream: `ofType(...)` for the six lanes,
      the conjunction of negated `instanceof` tests for the catch-all. */
  predicate Accepts(lane: Lane, a: PsiCashAction)
  {
    match lane
    case ClearErrorStateProcessor => a.ClearErrorState?
    case MakeExpiringPurchaseProcessor => a.MakeExpiringPurchase?
    case GetPsiCashLocalProcessor => a.GetPsiCashLocal?
    case RemovePurchasesProcessor => a.RemovePurchases?
    case GetPsiCashRemoteProcessor => a.GetPsiCashRemote?
    case LoadVideoAdProcessor => a.LoadVideoAd?
    case NotImplemented =>
      && !a.ClearErrorState?
      && !a.MakeExpiringPurchase?
      && !a.GetPsiCashLocal?
      && !a.GetPsiCashRemote?
      && !a.RemovePurchases?
      && !a.LoadVideoAd?
  }

  /** The one subscriber that acts on `a`. */
  function Route(a: PsiCashAction): (lane: Lane)
    ensures Accepts(lane, a)
    ensures forall other: Lane :: Accepts(other, a) ==> other == lane
    ensures lane == NotImplemented <==> a.UnknownAction?
  {
    match a
    case ClearErrorState => ClearErrorStateProcessor
    case GetPsiCashRemote(_) => GetPsiCashRemoteProcessor
    case GetPsiCashLocal => GetPsiCashLocalProcessor
    case MakeExpiringPurchase(_, _, _) => MakeExpiringPurchaseProcessor
    case RemovePurchases(_) => RemovePurchasesProcessor
    case LoadVideoAd(_) => LoadVideoAdProcessor
    case UnknownAction(_) => NotImplemented
  }

  /** The result families a lane may emit. */
  predicate InFamily(lane: Lane, r: PsiCashResult)
  {
    match lane
    case ClearErrorStateProcessor => r.ClearErrorStateSuccess?
    case MakeExpiringPurchaseProcessor => IsExpiringPurchase(r) || r.GetPsiCashSuccess?
    case GetPsiCashLocalProcessor => IsGetPsiCash(r)
    case RemovePurchasesProcessor => IsGetPsiCash(r)
    case GetPsiCashRemoteProcessor => IsGetPsiCash(r)
    case LoadVideoAdProcessor => IsVideo(r)
    case NotImplemented => false
  }

  /** The external collaborators, as the answers they give to the call made for the action at
      each position of the input: PsiCashClient's four calls, the rewarded-video source
      (which already depends on rewardedVideoCustomData), and whether a listener was given. */
  datatype Clients = Clients(
    remote: (nat, ConnectionState) -> Call<PsiCashData>,
    local: nat -> Call<PsiCashData>,
    purchase: (nat, ConnectionState, int, bool) -> Call<PurchasePayload>,
    removal: (nat, seq<string>) -> Call<PsiCashData>,
    video: (nat, ConnectionState) -> Stream<VideoEvent>,
    hasListener: bool)

  /** The error the catch-all raises for an action no lane accepts. */
  function NotImplementedError(a: PsiCashAction): Throwable
    requires a.UnknownAction?
  {
    IllegalArgument(UnknownActionPrefix + a.text)
  }

  /** What the merged stream receives for the action `a` at position `at`. */
  function ProcessAction(a: PsiCashAction, at: nat, clients: Clients): (r: Run)
    ensures r.stream.end.Errored? <==> Route(a) == NotImplemented
    ensures a.UnknownAction? ==> r == Traced(Stream([], Errored(NotImplementedError(a))), [])
  {
    match a
    case ClearErrorState => ClearErrorStateLane()
    case GetPsiCashRemote(cs) => GetPsiCashLane(clients.remote(at, cs))
    case GetPsiCashLocal => GetPsiCashLane(clients.local(at))
    case MakeExpiringPurchase(cs, price, boost) =>
      MakeExpiringPurchaseLane(clients.purchase(at, cs, price, boost), clients.hasListener)
    case RemovePurchases(ps) => GetPsiCashLane(clients.removal(at, ps))
    case LoadVideoAd(cs) => LoadVideoAdLane(clients.video(at, cs), clients.hasListener)
    case UnknownAction(_) => Traced(Stream([], Errored(NotImplementedError(a))), [])
  }

  /** Every result of an action belongs to the family of the lane that handles it. */
  lemma ProcessActionFamily(a: PsiCashAction, at: nat, clients: Clients)
    ensures var r := ProcessAction(a, at, clients);
            forall i :: 0 <= i < |r.stream.items| ==> InFamily(Route(a), r.stream.items[i])
  {
    match a
    case LoadVideoAd(cs) => VideoLaneFamily(clients.video(at, cs), clients.hasListener);
    case MakeExpiringPurchase(cs, price, boost) =>
      PurchaseLaneFamily(clients.purchase(at, cs, price, boost), clients.hasListener);
    case GetPsiCashRemote(cs) => GetPsiCashLaneFamily(clients.remote(at, cs));
    case GetPsiCashLocal => GetPsiCashLaneFamily(clients.local(at));
    case RemovePurchases(ps) => GetPsiCashLaneFamily(clients.removal(at, ps));
    case ClearErrorState =>
    case UnknownAction(_) =>
  }

  lemma GetPsiCashLaneFamily(call: Call<PsiCashData>)
    ensures var r := GetPsiCashLane(call);
            forall i :: 0 <= i < |r.stream.items| ==> IsGetPsiCash(r.stream.items[i])
  {
  }

  lemma PurchaseLaneFamily(call: Call<PurchasePayload>, hasListener: bool)
    ensures var r := MakeExpiringPurchaseLane(call, hasListener);
            forall i :: 0 <= i < |r.stream.items| ==>
              IsExpiringPurchase(r.stream.items[i]) || r.stream.items[i].GetPsiCashSuccess?
  {
    var r := MakeExpiringPurchaseLane(call, hasListener);
    assert |r.stream.items| == 2 && r.stream.items[0] == ExpiringPurchaseInFlight;
  }

  /** The listener is called exactly as the results of an action promise, and never without one. */
  lemma ProcessActionNotifies(a: PsiCashAction, at: nat, clients: Clients)
    ensures var r := ProcessAction(a, at, clients);
            && (clients.hasListener ==> r.effects == Notified(r.stream.items))
            && (!clients.hasListener ==> r.effects == [])
  {
  }

  /** RemovePurchases answers like a balance request: the in-flight marker, then the balance the
      removal returns or the failure it raised; the merged stream goes on. */
  lemma RemovePurchasesResults(ps: seq<string>, at: nat, clients: Clients)
    ensures var r := ProcessAction(RemovePurchases(ps), at, clients);
            var call := clients.removal(at, ps);
            && r.stream.end == Completed
            && r.stream.items == [GetPsiCashInFlight,
                                  if call.Ok? then GetPsiCashSuccess(call.value) else GetPsiCashFailure(call.error)]
            && r.effects == []
  {
    var r := ProcessAction(RemovePurchases(ps), at, clients);
    assert |r.stream.items| == 2;
  }

  lemma VideoLaneFamily(source: Stream<VideoEvent>, hasListener: bool)
    ensures var r := LoadVideoAdLane(source, hasListener);
            forall i :: 0 <= i < |r.stream.items| ==> IsVideo(r.stream.items[i])
  {
    var r := LoadVideoAdLane(source, hasListener);
    var k := Accepted(VideoMapperFor(hasListener), source.items);
    forall i | 0 <= i < |r.stream.items|
      ensures IsVideo(r.stream.items[i])
    {
      if 1 <= i <= k {
        assert IsVideoProgress(r.stream.items[i]);
      }
    }
  }

  /** The merged output for the actions from position `from` on. The catch-all's error ends
      the merged stream; the actions after it are never processed. */
  function ProcessFrom(actions: seq<PsiCashAction>, from: nat, clients: Clients): (r: Run)
    requires from <= |actions|
    ensures clients.hasListener ==> r.effects == Notified(r.stream.items)
    ensures !clients.hasListener ==> r.effects == []
    decreases |actions| - from
  {
    if from == |actions| then Traced(Stream([], Completed), [])
    else
      var head := ProcessAction(actions[from], from, clients);
      if head.stream.end.Errored? then ProcessActionNotifies(actions[from], from, clients); head
      else
        var rest := ProcessFrom(actions, from + 1, clients);
        ProcessActionNotifies(actions[from], from, clients);
        NotifiedAppend(head.stream.items, rest.stream.items);
        Traced(Stream(head.stream.items + rest.stream.items, rest.stream.end), head.effects + rest.effects)
  }

  /** The position of the first action no lane accepts, or `|actions|` if there is none. */
  function FirstUnknown(actions: seq<PsiCashAction>, from: nat): (j: nat)
    requires from <= |actions|
    ensures from <= j <= |actions|
    ensures forall m :: from <= m < j ==> !actions[m].UnknownAction?
    ensures j < |actions| ==> actions[j].UnknownAction?
    decreases |actions| - from
  {
    if from == |actions| || actions[from].UnknownAction? then from else FirstUnknown(actions, from + 1)
  }

  /** The merged stream completes unless some action is not implemented; then it fails with the
      error naming the first such action. */
  lemma {:induction false} ProcessFromEnd(actions: seq<PsiCashAction>, from: nat, clients: Clients)
    requires from <= |actions|
    ensures var j := FirstUnknown(actions, from);
            ProcessFrom(actions, from, clients).stream.end ==
              if j < |actions| then Errored(NotImplementedError(actions[j])) else Completed
    decreases |actions| - from
  {
    if from < |actions| && !actions[from].UnknownAction? {
      var head := ProcessAction(actions[from], from, clients);
      assert head.stream.end.Completed?;
      ProcessFromEnd(actions, from + 1, clients);
    }
  }

  /** The results of the actions at positions `from` up to `stop`, each action's results kept
      together and in input order. */
  function ResultsBetween(actions: seq<PsiCashAction>, from: nat, stop: nat, clients: Clients): seq<PsiCashResult>
    requires from <= stop <= |actions|
    decreases stop - from
  {
    if from == stop then []
    else ProcessAction(actions[from], from, clients).stream.items + ResultsBetween(actions, from + 1, stop, clients)
  }

  /** The merged stream carries the results of every action before the first one no lane
      accepts, and nothing of the actions from that one on. */
  lemma {:induction false} ProcessFromItems(actions: seq<PsiCashAction>, from: nat, clients: Clients)
    requires from <= |actions|
    ensures ProcessFrom(actions, from, clients).stream.items ==
              ResultsBetween(actions, from, FirstUnknown(actions, from), clients)
    decreases |actions| - from
  {
    if from < |actions| && !actions[from].UnknownAction? {
      var head := ProcessAction(actions[from], from, clients);
      assert head.stream.end.Completed?;
      ProcessFromItems(actions, from + 1, clients);
    }
  }
}

=== FILE: rx.dfy ===
/** A finite model of the reactive-stream operators the PsiCash action processors compose.

    A stream is the complete record of what one finite observable delivers: its items in
    order, then exactly one terminal event. The operators below are the ones the processors
    chain together (`map`, `startWith`, `concatWith`, `onErrorReturn`, `just`), restricted to
    a single subscription; scheduling, cancellation and multicasting are not modelled.
 */
module Rx {

  /** A Java exception, reduced to what the processors distinguish. */
  datatype Throwable =
    | ClientError(message: string)      // raised by an external client or SDK
    | IllegalArgument(message: string)  // an IllegalArgumentException thrown by the processor
    | NullPointer                       // a method invoked on a null reference

  datatype End = Completed | Errored(error: Throwable)

  /** Everything one subscription to a finite observable receives. */
  datatype Stream<T> = Stream(items: seq<T>, end: End)

  /** The outcome of an external call that yields a single value or fails. */
  datatype Call<T> = Ok(value: T) | Err(error: Throwable)

  /** What a mapper does with one item: fire side effects `effects` and return `value`, or throw. */
  datatype Step<U, X> = Emit(value: U, effects: seq<X>) | Throw(error: Throwable)

  /** A stream together with the side effects fired while producing it. */
  datatype Traced<T, X> = Traced(stream: Stream<T>, effects: seq<X>)

  function FromCall<T>(c: Call<T>): Stream<T>
  {
    match c
    case Ok(v) => Stream([v], Completed)
    case Err(e) => Stream([], Errored(e))
  }

  function Just<T>(x: T): Stream<T>
  {
    Stream([x], Completed)
  }

  function StartWith<T>(s: Stream<T>, first: T): Stream<T>
  {
    Stream([first] + s.items, s.end)
  }

  /** `concatWith`: `next` is subscribed only once `s` has completed normally. */
  function ConcatWith<T>(s: Stream<T>, next: Stream<T>): Stream<T>
  {
    if s.end.Completed? then Stream(s.items + next.items, next.end) else s
  }

  /** `onErrorReturn`: an error becomes one last item and the stream completes. */
  function OnErrorReturn<T>(s: Stream<T>, handler: Throwable -> T): Stream<T>
  {
    match s.end
    case Completed => s
    case Errored(e) => Stream(s.items + [handler(e)], Completed)
  }

  /** The number of leading items `f` maps before it first throws. */
  function Accepted<T, U, X>(f: T -> Step<U, X>, xs: seq<T>): (k: nat)
    ensures k <= |xs|
    ensures forall i :: 0 <= i < k ==> f(xs[i]).Emit?
    ensures k < |xs| ==> f(xs[k]).Throw?
    decreases |xs|
  {
    if |xs| == 0 || f(xs[0]).Throw? then 0 else 1 + Accepted(f, xs[1..])
  }

  /** The side effects `f` fires over `xs`, in order. */
  function EffectsOf<T, U, X>(f: T -> Step<U, X>, xs: seq<T>): seq<X>
    decreases |xs|
  {
    if |xs| == 0 then []
    else (if f(xs[0]).Emit? then f(xs[0]).effects else []) + EffectsOf(f, xs[1..])
  }

  /** `map` with a mapper that may throw: the first throw replaces the rest of the
      stream by an error, exactly as an exception inside a reactive `map` does. */
  function Map<T, U, X>(s: Stream<T>, f: T -> Step<U, X>): (r: Traced<U, X>)
    ensures |r.stream.items| == Accepted(f, s.items)
    ensures forall i :: 0 <= i < |r.stream.items| ==> r.stream.items[i] == f(s.items[i]).value
    ensures r.stream.end ==
              if Accepted(f, s.items) < |s.items|
              then Errored(f(s.items[Accepted(f, s.items)]).error)
              else s.end
    decreases |s.items|
  {
    if |s.items| == 0 then Traced(Stream([], s.end), [])
    else
      match f(s.items[0])
      case Throw(e) => Traced(Stream([], Errored(e)), [])
      case Emit(v, fx) =>
        var tail := Stream(s.items[1..], s.end);
        var rest := Map(tail, f);
        Traced(Stream([v] + rest.stream.items, rest.stream.end), fx + rest.effects)
  }

  /** The side effects of `map` are those its mapper fires on the items it accepts. */
  lemma {:induction false} MapEffects<T, U, X>(s: Stream<T>, f: T -> Step<U, X>)
    ensures Map(s, f).effects == EffectsOf(f, s.items[..Accepted(f, s.items)])
    decreases |s.items|
  {
    if |s.items| > 0 && f(s.items[0]).Emit? {
      var tail := Stream(s.items[1..], s.end);
      MapEffects(tail, f);
      var k := Accepted(f, s.items);
      assert s.items[..k][1..] == tail.items[..k - 1];
    }
  }
}
